=== FILE: README.md ===
# Constella client logic in Dafny

Constella is a small social journal. A React client talks to a hosted Supabase backend. Users
keep *circles* (themes of their life), post *moments* into them, write notes, and connect with
other users. Almost all of the client is rendering and network calls. This project models the
pure, sequential logic inside its components:

- **Connection classifier** (`Connections`). `groupConnections` sorts the viewer's connection
  rows into incoming-pending, outgoing-pending and accepted lists. `loadConnections` builds the
  de-duplicated list of counterpart ids and the profile map, and handles each failure path.
- **Feed visibility** (`Feed`). The set of connected users is derived from the fetched
  connection rows. The fetched moments are then filtered with three rules: anything not marked
  "connections", anything the viewer wrote, and "connections" moments whose author is connected.
- **Form handlers and name derivations** (`App`, `CirclesManager`, `CreateMoment`,
  `NotesPanel`, `QuickNotes`, `AuthPanel`, `AuthContext`). Each handler is a pure function from
  the form state and the backend's answers to the new state and the record sent, if any.
- **JavaScript string semantics** (`JsText`, `Seqs`). This covers `trim()` (the ECMAScript
  WhiteSpace and LineTerminator code points, written out), `split(sep)[0]`, `slice(0, n)`, the
  `a || b` fallback on strings, `Array.from(new Set(xs))` and order-preserving subsequences.

Every Supabase call becomes a parameter carrying its answer. `Backend.Response` models a
`{ data, error }` pair: an error, or data that may be `null`. `Backend.Outcome` models an
insert or auth call that either returns a value or fails with a message. The model decides
which call is made and with which record (the `sent`/`upsert` fields). It then says what the
component shows for each possible answer.

## Model

| member | source | states |
|---|---|---|
| JsText.Trim | src/components/QuickNotes.jsx:8 | `trim()` returns a contiguous slice of its input with no whitespace at either end, and everything cut from both sides is whitespace |
| JsText.BlankIffAllWhitespace | src/components/QuickNotes.jsx:8-9 | `!s.trim()` holds exactly when every character of `s` is whitespace |
| JsText.TrimOfPadded | src/components/CirclesManager.jsx:62 | trimming any whitespace-padded tight string gives back exactly that string, so the contract of `Trim` pins it down completely |
| JsText.TrimIdempotent | src/components/CirclesManager.jsx:62 | trimming an already-trimmed value changes nothing |
| JsText.AllWhitespaceJoined | src/auth/AuthPanel.jsx:67 | `first + " " + last` is all whitespace exactly when both parts are |
| JsText.BeforeFirst | src/App.jsx:46 | `split("@")[0]` is the longest prefix without the separator, and the separator follows it when the string continues |
| JsText.BeforeFirstWhole | src/App.jsx:46 | the prefix is the whole string exactly when the separator does not occur |
| JsText.BeforeFirstRoundTrip | src/App.jsx:46 | the prefix, the separator and the remainder reassemble the original string |
| JsText.Or | src/App.jsx:46 | the logical-or fallback on two strings gives the first unless it is empty, and is empty only when both are |
| JsText.Take | src/App.jsx:46 | `slice(0, 8)` is a prefix of length min(8, length) |
| Seqs.SubsequenceElements | src/components/MosaicFeed.jsx:71-75 | a subsequence is no longer than its source and holds only its elements; this turns the filter's order results into counts and membership |
| Seqs.Distinct | src/components/ConnectionsPanel.jsx:80-86 | `Array.from(new Set(xs))` has the same members as `xs`, no repeats, and keeps first-occurrence order (a subsequence of `xs`) |
| Backend.RowsOrEmpty | src/components/MosaicFeed.jsx:35-40 | `rows || []`: the returned rows when the call returned an array; an empty list on an error or a `null` answer, so a failed query is read as having found nothing |
| Connections.Counterpart | src/components/ConnectionsPanel.jsx:11-12 | the counterpart is the target when the viewer is the source, otherwise the source |
| Connections.CounterpartIsOtherEndpoint | src/components/ConnectionsPanel.jsx:11-12 | for a row between two distinct users that involves the viewer, the counterpart is not the viewer, and the two of them are exactly the row's endpoints |
| Connections.Lookup | src/components/ConnectionsPanel.jsx:13 | a missing profile gives `null` (`None`) instead of failing; a present one is returned as stored |
| Connections.ToEntry | src/components/ConnectionsPanel.jsx:11-22 | each entry keeps the row's id, status and created_at, names the counterpart, is "outgoing" exactly when the viewer is the source, and has a profile exactly when one was fetched |
| Connections.Entries | src/components/ConnectionsPanel.jsx:10-22 | one entry per row, in input order |
| Connections.GroupConnections | src/components/ConnectionsPanel.jsx:5-33 | the loop's three lists equal the reference selection of rows by status and direction |
| Connections.SelectedEntriesShape | src/components/ConnectionsPanel.jsx:24-29 | every entry in `accepted` is accepted, and every entry in `outgoing` or `incoming` is pending with that direction |
| Connections.GroupsDisjoint | src/components/ConnectionsPanel.jsx:24-29 | the three lists share no entry |
| Connections.GroupsComplete | src/components/ConnectionsPanel.jsx:24-29 | an accepted row lands in `accepted` whatever its direction; a pending row lands in `outgoing` when the viewer sent it, else in `incoming`; any other status lands in no list |
| Connections.GroupsLength | src/components/ConnectionsPanel.jsx:24-29 | the three lengths sum to the number of pending-or-accepted rows |
| Connections.SelectIsSubsequence | src/components/ConnectionsPanel.jsx:10-29 | each list keeps input order: it is a subsequence of the entries of all rows |
| Connections.Counterparts | src/components/ConnectionsPanel.jsx:82-84 | the mapped ids are the counterparts of the rows, position by position |
| Connections.OtherIds | src/components/ConnectionsPanel.jsx:80-86 | the requested ids are exactly the rows' counterparts, each appearing once |
| Connections.ProfileMap | src/components/ConnectionsPanel.jsx:99-100 | the map's keys are the fetched profiles' ids, and each key maps to a fetched profile carrying that id |
| Connections.ProfileMapLastWins | src/components/ConnectionsPanel.jsx:99-100 | a profile whose id does not occur again later is the one stored under that id, so a later profile with the same id overwrites an earlier one |
| Connections.ProfileMapFindsEach | src/components/ConnectionsPanel.jsx:99-100 | when the ids are unique, each fetched profile is found under its own id |
| Connections.Load | src/components/ConnectionsPanel.jsx:47-105 | no user gives "No se pudo obtener el usuario actual."; a failed connection or profile query shows its message and keeps the old lists; no rows give three empty lists; otherwise the lists are the grouping of the rows. The profile query is made exactly when there are rows, and it asks for the de-duplicated counterpart ids |
| Connections.EmptyShortcutAgrees | src/components/ConnectionsPanel.jsx:73-77 | the empty-input shortcut gives the same three empty lists as grouping no rows |
| Feed.CounterpartSetSnoc | src/components/MosaicFeed.jsx:40-43 | one more row adds exactly its counterpart to the set |
| Feed.CollectConnectedIds | src/components/MosaicFeed.jsx:39-43 | the loop builds the set of the fetched rows' counterparts; a failed query gives the empty set |
| Feed.CounterpartSetBounded | src/components/MosaicFeed.jsx:39-43 | the set has at most one member per row |
| Feed.DuplicateRowAddsNothing | src/components/MosaicFeed.jsx:39-43 | repeating a row does not add members |
| Feed.CounterpartSetMatchesAccepted | src/components/MosaicFeed.jsx:28-43 | when every fetched row is accepted, the set equals the counterparts that the classifier puts in `accepted` |
| Feed.FilterVisible | src/components/MosaicFeed.jsx:71-75 | a moment is in the result exactly when it was fetched and is visible, and the result is no longer than the input |
| Feed.FilterIsSubsequence | src/components/MosaicFeed.jsx:71-75 | the filter preserves order: its result is a subsequence of the fetched moments |
| Feed.FilterConcat | src/components/MosaicFeed.jsx:71-75 | filtering a concatenation filters each part |
| Feed.OwnMomentsKept | src/components/MosaicFeed.jsx:73 | the viewer's own moments are kept whatever their visibility and whatever the set |
| Feed.OthersMomentsRule | src/components/MosaicFeed.jsx:72-74 | another author's "connections" moment is kept exactly when that author is in the set; any other visibility, "private" included, is kept |
| Feed.FilterKeepsAllVisible | src/components/MosaicFeed.jsx:71-75 | when every moment is visible the filter is the identity |
| Feed.FilterIdempotent | src/components/MosaicFeed.jsx:71-75 | filtering twice gives the result of filtering once |
| Feed.FilterMonotone | src/components/MosaicFeed.jsx:71-75 | a larger connection set never hides a moment that a smaller one shows |
| Feed.MoreConnectionsShowMore | src/components/MosaicFeed.jsx:72-74 | a larger connection set shows at least as many moments, including every moment a smaller set shows |
| Feed.FetchFeed | src/components/MosaicFeed.jsx:17-86 | signed out gives no moments and the sign-in message; a failed moment query keeps the old moments and shows the failure message; otherwise the moments are exactly the filter's result over the fetched moments, so they keep order and multiplicity, and the empty-feed message appears exactly when none remain |
| Feed.ConnectionsFailureHidesOnlyOthersConnectionsItems | src/components/MosaicFeed.jsx:35-75 | when the connection query fails the filter still runs, and only other people's "connections" moments are dropped |
| App.FindIndex | src/App.jsx:106 | `find` picks the first circle with the selected id, or none when no circle has it |
| App.SelectedCircle | src/App.jsx:105-106 | the shown circle is the first one with the selected id, else the first circle, else `null`; it is always a circle of the list |
| App.SelectedIsFirstMatch | src/App.jsx:106 | when several circles carry the selected id, the first of them is shown |
| App.AddCircleLocal | src/App.jsx:85-88 | the new circle is appended, earlier circles are unchanged, and it becomes selected only when nothing was selected |
| App.AddKeepsShownCircle | src/App.jsx:85-88 | adding a circle does not change the shown circle while the selection matches an existing one |
| App.AddShowsNewCircle | src/App.jsx:85-88 | with nothing selected, a newly added circle with a fresh id is the one shown |
| App.ApplyFetchedCircles | src/App.jsx:72-77 | a failed or `null` answer changes nothing; any array, empty included, replaces the list; with nothing selected, a non-empty one also selects its first circle |
| App.FetchedFirstCircleShown | src/App.jsx:72-77 | after such a fetch the first fetched circle is the one shown |
| App.BootstrapUsername | src/App.jsx:45-46 | the username is the email's part before the first '@' when that is non-empty, else "user_" plus the first eight characters of the id |
| App.EnsureProfile | src/App.jsx:44-53 | a row is inserted exactly when the lookup returned neither a row nor an error; its display name equals its username, and a missing email is stored as `null` |
| App.BootstrapAgreesWithContext | src/App.jsx:45-46 | without a full name and with a non-empty email prefix, the shell's username equals the display name derived by the auth context |
| App.BootstrapDiffersFromContextWithoutEmail | src/App.jsx:45-46 | with neither a full name nor an email, the two derivations differ ("user_…" against "Sin nombre") |
| CirclesManager.Initial | src/components/CirclesManager.jsx:12-16 | the form starts empty with the first palette colour |
| CirclesManager.Submit | src/components/CirclesManager.jsx:44-83 | no session or a blank name sends nothing and shows the matching message; otherwise the record holds the trimmed name, the trimmed description or "Sin descripción aún.", and the colour; an insert error leaves the list as it was; success appends the circle, clears name and description, and keeps the colour |
| CirclesManager.ColorStaysInPalette | src/components/CirclesManager.jsx:154-160 | whatever the user types, clicks or submits, a palette colour stays a palette colour |
| CirclesManager.ReachableColorsAreSuggested | src/components/CirclesManager.jsx:154-160 | from the initial form, the colour is always one of `SUGGESTED_COLORS` |
| CreateMoment.Initial | src/components/CreateMoment.jsx:14-19 | mood and visibility start at "inspirado" and "connections" (the first entries of the two tables), and the circle is the selected one or "" |
| CreateMoment.Publish | src/components/CreateMoment.jsx:22-70 | the title is checked before the circle and both before the session; a record is sent exactly when all three pass; it holds the trimmed title and content with mood and visibility unchanged; an insert error changes only the status; success resets title, content, mood and visibility but keeps the circle |
| CreateMoment.ChoicesStayListed | src/components/CreateMoment.jsx:126-160 | whatever the user does, mood and visibility stay values of `MOODS` and `VISIBILITIES` |
| CreateMoment.PublishedChoicesListed | src/components/CreateMoment.jsx:49-56 | every moment published from a composer in use carries a listed mood and visibility |
| NotesPanel.SaveNote | src/NotesPanel.jsx:39-65 | no user or blank text sends nothing and shows the matching message; the sent text is trimmed; an insert error leaves notes and text unchanged; success prepends the returned row above the old notes and clears the text |
| NotesPanel.SaveOnePrepends | src/NotesPanel.jsx:61-64 | one successful save of a non-blank note puts it on top, clears the text and shows "Nota guardada." |
| NotesPanel.SaveAllPrepends | src/NotesPanel.jsx:61-64 | a series of successful saves shows the notes newest first, above the old ones |
| QuickNotes.Add | src/components/QuickNotes.jsx:7-20 | blank text changes nothing; otherwise exactly one note holding the trimmed text is put in front, the rest is unchanged, the text is cleared, and the id is 1 for the first note and otherwise one more than the LAST note's id |
| QuickNotes.AddKeepsAsWrittenIds | src/components/QuickNotes.jsx:11-17 | starting from an empty list, the ids are always 1 for the oldest note and 2 for every other note |
| QuickNotes.ThirdAddRepeatsAnId | src/components/QuickNotes.jsx:13 | three adds give ids 2, 2, 1, so ids repeat from the third note on |
| QuickNotes.AddWithFreshId | src/components/QuickNotes.jsx:7-20 | the corrected add: as `Add`, but the id is one more than the FIRST (newest) note's id |
| QuickNotes.AddWithFreshIdKeepsIdsUnique | src/components/QuickNotes.jsx:13 | with the corrected numbering the ids run n, n-1, …, 1 and no two notes share an id |
| AuthPanel.Years | src/auth/AuthPanel.jsx:4 | ninety years descending by one from 2025 to 1936 |
| AuthPanel.Months | src/auth/AuthPanel.jsx:5-18 | twelve distinct month names from "ene." to "dic." |
| AuthPanel.Days | src/auth/AuthPanel.jsx:19 | the days are exactly 1 to 31, in order |
| AuthPanel.ShowSignup | src/auth/AuthPanel.jsx:161-164 | the sign-up card is shown with an empty status |
| AuthPanel.ShowLogin | src/auth/AuthPanel.jsx:315-318 | the login card is shown with an empty status |
| AuthPanel.SwitchingClearsStatus | src/auth/AuthPanel.jsx:161-164 | switching cards in either order always leaves an empty status |
| AuthPanel.LoginCredentials | src/auth/AuthPanel.jsx:47-50 | the email is trimmed and the password is passed exactly as typed |
| AuthPanel.Login | src/auth/AuthPanel.jsx:41-58 | the sign-in call receives the trimmed email and the password as typed; the view is kept; the status is the success message or the error's message |
| AuthPanel.LoginTrimsEmailOnly | src/auth/AuthPanel.jsx:47-50 | a login with an email already trimmed is the same step as with the email as typed, while the password reaches the sign-in call untouched |
| AuthPanel.SignupRequestFor | src/auth/AuthPanel.jsx:65-68 | the email is trimmed, the password is not, the display name is `first + " " + last` trimmed, and the username is the email prefix before '@' or "usuario" |
| AuthPanel.Signup | src/auth/AuthPanel.jsx:60-94 | a failure shows its message and writes nothing; success switches to the login card with the confirmation message; a profile is upserted exactly when a user came back, and its display name falls back to the username when the joined name is empty |
| AuthPanel.SignupNameBlankIffPartsBlank | src/auth/AuthPanel.jsx:67 | the joined display name is empty exactly when both name fields are blank |
| AuthContext.EmailOrEmpty | src/auth/AuthContext.jsx:56 | a missing email becomes "" |
| AuthContext.DisplayNameFor | src/auth/AuthContext.jsx:57-60 | the display name is `full_name` if non-empty, else the email prefix if non-empty, else "Sin nombre"; it is never empty |
| AuthContext.ProfileUpsertFor | src/auth/AuthContext.jsx:55-69 | the upserted row carries the auth user's id, the email or "", and the derived display name |
| AuthContext.OnSession | src/auth/AuthContext.jsx:38-80 | the user is the session's user; an upsert is made exactly when there is one, and it is that user's `ProfileUpsertFor` row; without a user the profile is cleared; with one the profile is replaced only when the upsert returned a row |
| AuthContext.SignOut | src/auth/AuthContext.jsx:82-86 | signing out leaves neither user nor profile |
| AuthContext.SignOutMatchesSessionEnd | src/auth/AuthContext.jsx:82-86 | signing out gives the same state as the listener reporting an ended session, and that change writes no profile row |

## Left out

- Network I/O. Every Supabase select, insert, upsert and auth call is replaced by its answer, given as a parameter. The backend cannot be seen from the client.
- Server-side query semantics. This covers the `.or(...)` visibility and participant filters, `.eq("status", "accepted")`, `.order`, `.limit(80)`, the `circle_id` filter and the `ilike` profile search. They run on the server. As a consequence, the model of `connectedIds` takes the counterpart of every row it is given without checking the status, just as the client code does.
- The feed filter keeps a "private" moment by another user. The client never excludes one; only the moment query does. The model follows the code here (`Feed.OthersMomentsRule`).
- React rendering, hooks, effect dependency lists, loading flags and the interleaving of asynchronous answers. Each handler is modelled as one atomic step from the answers it receives.
- The send-request, accept and reject handlers of the connections panel. Each clears the message, then shows the error's message on failure, or else its own message ("Solicitud enviada.", "Conexión aceptada." or "Solicitud rechazada.") and reloads the connections; that reload clears the message again as it starts. Sending a request inserts a "pending" row from the current user, and shows "Sesión no válida." when no user comes back. These are server writes with no client-side decision beyond the message.
- The search handler of the connections panel. It trims its term and returns at once on blank input, before touching the message. Otherwise it clears the message, then shows "Sesión no válida." when no user comes back or the error's message when the query fails; on success it sets no message, does not reload, and stores the matching profiles (`data || []`). The matching itself (`ilike` on username, display name and email, other users only, at most 10) happens on the server.
- The initial loads of circles and notes in `CirclesManager` and `NotesPanel`. They store `data || []` or log an error.
- The constellation view's node layout. It is floating-point trigonometry. Its selected-circle fallback is the same expression as the shell's and is modelled once, as `App.SelectedCircle`.
- Timestamp formatting (`toLocaleString`), console logging, markup and styles.
- The birth-date and gender fields of the sign-up form. They are rendered but never sent, and only their tables are modelled.
- The auth context's `refreshProfile` and its loading flag. Refreshing re-runs the upsert modelled by `AuthContext.OnSession`.
- JsText.Take: strings are sequences of Unicode scalar values, while JavaScript's `slice` and `length` count UTF-16 code units. The two differ only for characters outside the Basic Multilingual Plane (U+0000 to U+FFFF). The one `slice(0, 8)` in the source applies to user ids, which are ASCII UUIDs, so `App.BootstrapUsername`'s length bounds hold for them. `trim` and `split("@")` are unaffected, because every code point `trim` removes and `'@'` lie in that plane.
- Non-string `user_metadata.full_name` values. The model takes the full name as an optional string, and only the empty string counts as falsy.
- AuthPanel.Signup: an error thrown by the profile upsert itself is not modelled. The source ignores the upsert's answer, and an exception there would need a network failure.

## Findings

| source | as written | input that shows it | evidently intended | confidence | as-written member | corrected member |
|---|---|---|---|---|---|---|
| src/components/QuickNotes.jsx:13 | a new note's id is one more than the id of the last note in the list, which is the oldest, because new notes go in front | add three non-blank notes to an empty pad: the ids are 2, 2, 1 | one more than the newest note's id, so the ids stay unique (n, n-1, …, 1) | not executed | QuickNotes.ThirdAddRepeatsAnId | QuickNotes.AddWithFreshIdKeepsIdsUnique |

=== FILE: app.dfy ===
/**
  The application shell: the viewer's circles, which one is selected, and the profile row
  written the first time a signed-in user has none.
 */
module App {
  import opened Backend
  import opened JsText
  import AuthContext

  /** A row of the circle table. */
  datatype Circle = Circle(
    id: string,
    userId: UserId,
    name: string,
    description: string,
    color: string,
    createdAt: string)

  /** The shell's circle list and `selectedCircleId` (`null` is `None`). */
  datatype Shell = Shell(circles: seq<Circle>, selectedId: Option<string>)

  /** `selectedCircleId` is truthy: present and not the empty string. */
  predicate HasSelection(sel: Option<string>) {
    sel.Some? && sel.value != ""
  }

  /** `circles.find(c => c.id === id)`, as an index: the first circle carrying the id. */
  function FindIndex(circles: seq<Circle>, id: Option<string>): (k: Option<nat>)
    ensures k.Some? ==> k.value < |circles| && Some(circles[k.value].id) == id
    ensures k.Some? ==> forall j :: 0 <= j < k.value ==> Some(circles[j].id) != id
    ensures k.None? ==> forall j :: 0 <= j < |circles| ==> Some(circles[j].id) != id
  {
    if |circles| == 0 then None
    else if Some(circles[0].id) == id then Some(0)
    else
      match FindIndex(circles[1..], id)
      case None => None
      case Some(k) => Some(k + 1)
  }

  /** `circles.find(...) || circles[0] || null`. */
  function SelectedCircle(circles: seq<Circle>, sel: Option<string>): (r: Option<Circle>)
    ensures r.None? <==> |circles| == 0
    ensures r.Some? ==> r.value in circles
    ensures (exists j :: 0 <= j < |circles| && Some(circles[j].id) == sel) ==>
      r.Some? && Some(r.value.id) == sel
    ensures (forall j :: 0 <= j < |circles| ==> Some(circles[j].id) != sel) && |circles| > 0 ==>
      r == Some(circles[0])
  {
    match FindIndex(circles, sel)
    case Some(k) => Some(circles[k])
    case None => if |circles| > 0 then Some(circles[0]) else None
  }

  /** When several circles carry the selected id, the first of them is shown. */
  lemma SelectedIsFirstMatch(circles: seq<Circle>, sel: Option<string>, k: nat)
    requires k < |circles| && Some(circles[k].id) == sel
    requires forall j :: 0 <= j < k ==> Some(circles[j].id) != sel
    ensures SelectedCircle(circles, sel) == Some(circles[k])
  {
  }

  /** `handleAddCircleLocal`: the circle goes at the end, and becomes the selection only when
      nothing was selected. */
  function AddCircleLocal(st: Shell, c: Circle): (r: Shell)
    ensures |r.circles| == |st.circles| + 1
    ensures r.circles[..|st.circles|] == st.circles && r.circles[|st.circles|] == c
    ensures HasSelection(st.selectedId) ==> r.selectedId == st.selectedId
    ensures !HasSelection(st.selectedId) ==> r.selectedId == Some(c.id)
  {
    Shell(st.circles + [c], if HasSelection(st.selectedId) then st.selectedId else Some(c.id))
  }

  /** Adding a circle does not change which circle is shown while the selection matches an
      existing circle. */
  lemma AddKeepsShownCircle(st: Shell, c: Circle, k: nat)
    requires HasSelection(st.selectedId)
    requires k < |st.circles| && Some(st.circles[k].id) == st.selectedId
    ensures SelectedCircle(AddCircleLocal(st, c).circles, AddCircleLocal(st, c).selectedId)
      == SelectedCircle(st.circles, st.selectedId)
  {
    var r := AddCircleLocal(st, c);
    var f := FindIndex(st.circles, st.selectedId);
    assert f.Some?;
    assert r.circles[f.value] == st.circles[f.value];
    SelectedIsFirstMatch(r.circles, r.selectedId, f.value);
  }

  /** With nothing selected, a newly added circle whose id is new is the one shown. */
  lemma AddShowsNewCircle(st: Shell, c: Circle)
    requires !HasSelection(st.selectedId)
    requires forall j :: 0 <= j < |st.circles| ==> st.circles[j].id != c.id
    ensures SelectedCircle(AddCircleLocal(st, c).circles, AddCircleLocal(st, c).selectedId) == Some(c)
  {
    var r := AddCircleLocal(st, c);
    SelectedIsFirstMatch(r.circles, r.selectedId, |st.circles|);
  }

  /** The circle query's answer: on success (`!error && data`) the list is replaced, and the
      first circle is selected when nothing was; otherwise nothing changes. */
  function ApplyFetchedCircles(st: Shell, resp: Response<seq<Circle>>): (r: Shell)
    ensures resp.Error? || resp.data.None? ==> r == st
    ensures resp.Data? && resp.data.Some? ==> r.circles == resp.data.value
    ensures resp.Data? && resp.data.Some? && !HasSelection(st.selectedId) && |resp.data.value| > 0 ==>
      r.selectedId == Some(resp.data.value[0].id)
    ensures HasSelection(st.selectedId) || RowsOrEmpty(resp) == [] ==> r.selectedId == st.selectedId
  {
    match resp
    case Data(Some(data)) =>
      Shell(data, if !HasSelection(st.selectedId) && |data| > 0 then Some(data[0].id) else st.selectedId)
    case _ => st
  }

  /** After the first successful fetch with nothing selected, the first circle is shown. */
  lemma FetchedFirstCircleShown(st: Shell, data: seq<Circle>)
    requires !HasSelection(st.selectedId) && |data| > 0
    ensures var r := ApplyFetchedCircles(st, Data(Some(data)));
      SelectedCircle(r.circles, r.selectedId) == Some(data[0])
  {
    var r := ApplyFetchedCircles(st, Data(Some(data)));
    SelectedIsFirstMatch(r.circles, r.selectedId, 0);
  }

  /** The part of the email before its first '@' when that is non-empty, else "user_"
      followed by the first eight characters of the id. */
  function BootstrapUsername(u: AuthUser): (name: string)
    ensures name != ""
    ensures u.email.Some? && BeforeFirst(u.email.value, '@') != "" ==>
      name == BeforeFirst(u.email.value, '@') && '@' !in name
    ensures u.email.None? || BeforeFirst(u.email.value, '@') == "" ==>
      name == "user_" + Take(u.id, 8) && 5 <= |name| <= 13
  {
    var prefix := match u.email case Some(e) => BeforeFirst(e, '@') case None => "";
    Or(prefix, "user_" + Take(u.id, 8))
  }

  /** The row inserted by the shell's `ensureProfile`. */
  datatype ProfileInsert = ProfileInsert(id: UserId, username: string, displayName: string, email: Option<string>)

  /** A row is inserted only when the profile lookup returned neither a row nor an error; its
      display name is its username, and a missing email is stored as `null`. */
  function EnsureProfile(u: AuthUser, lookup: Response<Profile>): (ins: Option<ProfileInsert>)
    ensures ins.Some? <==> lookup == Data(None)
    ensures ins.Some? ==>
      && ins.value.id == u.id
      && ins.value.username == BootstrapUsername(u)
      && ins.value.displayName == ins.value.username
      && ins.value.email == u.email
  {
    match lookup
    case Data(None) =>
      var username := BootstrapUsername(u);
      Some(ProfileInsert(u.id, username, username, u.email))
    case _ => None
  }

  /** Without a full name, the shell's username and the context's display name agree whenever
      the email has a non-empty prefix... */
  lemma BootstrapAgreesWithContext(u: AuthUser)
    requires u.fullName.None? || u.fullName.value == ""
    requires u.email.Some? && BeforeFirst(u.email.value, '@') != ""
    ensures BootstrapUsername(u) == AuthContext.DisplayNameFor(u)
  {
  }

  /** ...and part ways when it has none: "user_" plus the id against "Sin nombre". */
  lemma BootstrapDiffersFromContextWithoutEmail(u: AuthUser)
    requires u.fullName.None? && u.email.None?
    ensures BootstrapUsername(u) != AuthContext.DisplayNameFor(u)
  {
    var name := BootstrapUsername(u);
    assert name == "user_" + Take(u.id, 8);
    assert name[0] == 'u';
    assert AuthContext.DisplayNameFor(u) == AuthContext.NoName;
    assert AuthContext.NoName[0] == 'S';
  }
}

=== FILE: auth.dfy ===
/**
  The sign-in screen: the birth-date tables, switching between the login and sign-up cards,
  and the credentials and profile row derived from what the user typed.
 */
module AuthPanel {
  import opened Backend
  import opened JsText

  const LoginOkMessage := "Inicio de sesión correcto."
  const AccountCreatedMessage := "Cuenta creada. Revisa tu correo para confirmar."
  const DefaultUsername := "usuario"

  /** `YEARS`: ninety years, newest first. */
  function Years(): (ys: seq<int>)
    ensures |ys| == 90
    ensures ys[0] == 2025 && ys[89] == 1936
    ensures forall i :: 0 <= i < 89 ==> ys[i + 1] == ys[i] - 1
  {
    seq(90, i => 2025 - i)
  }

  /** `DAYS`: the day numbers 1 to 31. */
  function Days(): (ds: seq<int>)
    ensures |ds| == 31
    ensures forall i :: 0 <= i < 31 ==> ds[i] == i + 1
    ensures forall d :: d in ds <==> 1 <= d <= 31
  {
    var ds := seq(31, i => i + 1);
    forall d | 1 <= d <= 31 ensures d in ds {
      assert ds[d - 1] == d;
    }
    ds
  }

  /** `MONTHS`: twelve distinct abbreviations, January first. */
  function Months(): (ms: seq<string>)
    ensures |ms| == 12
    ensures ms[0] == "ene." && ms[11] == "dic."
    ensures forall i, j :: 0 <= i < j < |ms| ==> ms[i] != ms[j]
  {
    ["ene.", "feb.", "mar.", "abr.", "may.", "jun.", "jul.", "ago.", "sept.", "oct.", "nov.", "dic."]
  }

  datatype View = LoginView | SignupView

  /** Which card is shown and the status line under it. */
  datatype Screen = Screen(view: View, status: string)

  /** "Crear una cuenta nueva": show the sign-up card with no status message. */
  function ShowSignup(s: Screen): (r: Screen)
    ensures r.view == SignupView && r.status == ""
  {
    Screen(SignupView, "")
  }

  /** "¿Ya tienes una cuenta?": show the login card with no status message. */
  function ShowLogin(s: Screen): (r: Screen)
    ensures r.view == LoginView && r.status == ""
  {
    Screen(LoginView, "")
  }

  /** Going to the sign-up card and back forgets any message the screen showed. */
  lemma SwitchingClearsStatus(s: Screen)
    ensures ShowLogin(ShowSignup(s)) == Screen(LoginView, "")
    ensures ShowSignup(ShowLogin(s)) == Screen(SignupView, "")
  {
  }

  datatype Credentials = Credentials(email: string, password: string)

  /** What `signInWithPassword` receives: the email trimmed, the password exactly as typed. */
  function LoginCredentials(email: string, password: string): (c: Credentials)
    ensures c.email == Trim(email) && Tight(c.email)
    ensures c.password == password
  {
    Credentials(Trim(email), password)
  }

  /** The login card after `handleLogin`, and the credentials it passed to the sign-in call. */
  datatype LoginAttempt = LoginAttempt(screen: Screen, sent: Credentials)

  /** `handleLogin`, given what was typed and what the sign-in call answered. */
  function Login(s: Screen, email: string, password: string, outcome: Outcome<()>): (r: LoginAttempt)
    ensures r.sent == LoginCredentials(email, password)
    ensures r.sent.email == Trim(email) && r.sent.password == password
    ensures r.screen.view == s.view
    ensures outcome.Failed? ==> r.screen.status == outcome.message
    ensures outcome.Succeeded? ==> r.screen.status == LoginOkMessage
  {
    var sent := LoginCredentials(email, password);
    match outcome
    case Succeeded(_) => LoginAttempt(s.(status := LoginOkMessage), sent)
    case Failed(msg) => LoginAttempt(s.(status := msg), sent)
  }

  /** Trimming the email before typing it changes nothing: the login step only ever sees the
      trimmed email, while the password reaches the sign-in call untouched. */
  lemma LoginTrimsEmailOnly(s: Screen, email: string, password: string, outcome: Outcome<()>)
    ensures Login(s, email, password, outcome) == Login(s, Trim(email), password, outcome)
    ensures Login(s, email, password, outcome).sent.password == password
  {
    TrimIdempotent(email);
  }

  datatype SignupForm = SignupForm(firstName: string, lastName: string, email: string, password: string)

  /** The values `handleSignup` derives before calling the auth service. */
  datatype SignupRequest = SignupRequest(email: string, password: string, displayName: string, usernameBase: string)

  function SignupRequestFor(f: SignupForm): (r: SignupRequest)
    ensures r.email == Trim(f.email) && r.password == f.password
    ensures r.displayName == Trim(f.firstName + " " + f.lastName)
    ensures r.usernameBase != "" && '@' !in r.usernameBase
    ensures BeforeFirst(r.email, '@') != "" ==> r.usernameBase == BeforeFirst(r.email, '@')
    ensures BeforeFirst(r.email, '@') == "" ==> r.usernameBase == DefaultUsername
  {
    var email := Trim(f.email);
    SignupRequest(email, f.password, Trim(f.firstName + " " + f.lastName), Or(BeforeFirst(email, '@'), DefaultUsername))
  }

  /** The profile row upserted after a sign-up that returned a user. */
  datatype ProfileUpsert = ProfileUpsert(id: UserId, username: string, displayName: string)

  datatype SignupResult = SignupResult(screen: Screen, upsert: Option<ProfileUpsert>)

  /** `handleSignup` once the sign-up call has answered with an error, or with a possibly
      absent user. The profile upsert's own outcome is ignored by the source. */
  function Signup(s: Screen, f: SignupForm, outcome: Outcome<Option<UserId>>): (r: SignupResult)
    ensures outcome.Failed? ==> r == SignupResult(s.(status := outcome.message), None)
    ensures outcome.Succeeded? ==> r.screen == Screen(LoginView, AccountCreatedMessage)
    ensures r.upsert.Some? <==> outcome.Succeeded? && outcome.value.Some?
    ensures r.upsert.Some? ==>
      var req := SignupRequestFor(f);
      && r.upsert.value.id == outcome.value.value
      && r.upsert.value.username == req.usernameBase
      && r.upsert.value.displayName != ""
      && (req.displayName != "" ==> r.upsert.value.displayName == req.displayName)
      && (req.displayName == "" ==> r.upsert.value.displayName == req.usernameBase)
  {
    match outcome
    case Failed(msg) => SignupResult(s.(status := msg), None)
    case Succeeded(user) =>
      var req := SignupRequestFor(f);
      var upsert :=
        match user
        case None => None
        case Some(id) => Some(ProfileUpsert(id, req.usernameBase, Or(req.displayName, req.usernameBase)));
      SignupResult(Screen(LoginView, AccountCreatedMessage), upsert)
  }

  /** The joined name is blank exactly when both parts are; then the stored display name is
      the username. */
  lemma SignupNameBlankIffPartsBlank(f: SignupForm)
    ensures SignupRequestFor(f).displayName == "" <==> Blank(f.firstName) && Blank(f.lastName)
  {
    var joined := f.firstName + " " + f.lastName;
    BlankIffAllWhitespace(joined);
    BlankIffAllWhitespace(f.firstName);
    BlankIffAllWhitespace(f.lastName);
    AllWhitespaceJoined(f.firstName, f.lastName);
  }
}

/**
  The authentication context: the profile row written on every session change, and the
  user/profile pair it exposes.
 */
module AuthContext {
  import opened Backend
  import opened JsText

  const NoName := "Sin nombre"

  /** `authUser.email || ""`. */
  function EmailOrEmpty(u: AuthUser): (e: string)
    ensures u.email.Some? ==> e == u.email.value
    ensures u.email.None? ==> e == ""
  {
    match u.email
    case Some(e) => e
    case None => ""
  }

  /** `full_name || email.split("@")[0] || "Sin nombre"`. */
  function DisplayNameFor(u: AuthUser): (name: string)
    ensures name != ""
    ensures u.fullName.Some? && u.fullName.value != "" ==> name == u.fullName.value
    ensures (u.fullName.None? || u.fullName.value == "") && BeforeFirst(EmailOrEmpty(u), '@') != "" ==>
      name == BeforeFirst(EmailOrEmpty(u), '@')
    ensures (u.fullName.None? || u.fullName.value == "") && BeforeFirst(EmailOrEmpty(u), '@') == "" ==>
      name == NoName
  {
    var fullName := match u.fullName case Some(n) => n case None => "";
    Or(fullName, Or(BeforeFirst(EmailOrEmpty(u), '@'), NoName))
  }

  datatype ProfileUpsert = ProfileUpsert(id: UserId, email: string, displayName: string)

  /** The row `ensureProfile` upserts, keyed by the auth user's id. */
  function ProfileUpsertFor(u: AuthUser): (p: ProfileUpsert)
    ensures p.id == u.id
    ensures p.email == EmailOrEmpty(u)
    ensures p.displayName == DisplayNameFor(u) && p.displayName != ""
  {
    ProfileUpsert(u.id, EmailOrEmpty(u), DisplayNameFor(u))
  }

  /** The context's user and profile. */
  datatype Session = Session(user: Option<AuthUser>, profile: Option<Profile>)

  /** The context after a session change, and the profile row upserted for it, if any. */
  datatype SessionChange = SessionChange(session: Session, upsert: Option<ProfileUpsert>)

  /** A session loaded at start-up or reported by the auth listener: the user is taken from it;
      without one no upsert is made and the profile is cleared; with one, `ensureProfile`
      upserts that user's row, and the returned row replaces the old profile only when the
      upsert returned one. */
  function OnSession(s: Session, sessionUser: Option<AuthUser>, answer: Response<Profile>): (r: SessionChange)
    ensures r.session.user == sessionUser
    ensures r.upsert.Some? <==> sessionUser.Some?
    ensures r.upsert.Some? ==> r.upsert.value == ProfileUpsertFor(sessionUser.value)
    ensures sessionUser.None? ==> r.session.profile.None?
    ensures sessionUser.Some? && answer.Data? && answer.data.Some? ==> r.session.profile == answer.data
    ensures sessionUser.Some? && (answer.Error? || answer.data.None?) ==> r.session.profile == s.profile
  {
    match sessionUser
    case None => SessionChange(Session(None, None), None)
    case Some(u) =>
      var profile := match answer case Data(Some(p)) => Some(p) case _ => s.profile;
      SessionChange(Session(sessionUser, profile), Some(ProfileUpsertFor(u)))
  }

  /** `signOut`: neither a user nor a profile is left. */
  function SignOut(s: Session): (r: Session)
    ensures r.user.None? && r.profile.None?
  {
    Session(None, None)
  }

  /** Signing out gives the same state as the listener reporting that the session ended, and
      neither writes a profile row. */
  lemma SignOutMatchesSessionEnd(s: Session, answer: Response<Profile>)
    ensures SignOut(s) == OnSession(s, None, answer).session
    ensures OnSession(s, None, answer).upsert.None?
  {
  }
}

=== FILE: backend.dfy ===
/**
  The shapes of the data the client receives from its hosted backend. Every query and
  mutation is performed outside the model; what it resolved to is handed to the model
  as a value of one of these types.
 */
module Backend {

  type UserId = string

  /** A JavaScript value that may be `null`/`undefined`. */
  datatype Option<+T> = None | Some(value: T)

  /** The `{ data, error }` pair a query resolves to: either an error, or data that may
      still be `null`. */
  datatype Response<+T> = Data(data: Option<T>) | Error(message: string)

  /** The result of an insert or sign-up call: the returned value, or the error's message. */
  datatype Outcome<+T> = Succeeded(value: T) | Failed(message: string)

  /** The authenticated user as the auth service reports it. `fullName` is
      `user_metadata.full_name`. */
  datatype AuthUser = AuthUser(id: UserId, email: Option<string>, fullName: Option<string>)

  /** A row of the public profile table. */
  datatype Profile = Profile(
    id: UserId,
    username: string,
    displayName: string,
    avatarUrl: Option<string>,
    email: Option<string>)

  /** The data of a response, with `null` and errors read as the empty list (`data || []`). */
  function RowsOrEmpty<T>(r: Response<seq<T>>): (rows: seq<T>)
    ensures r.Data? && r.data.Some? ==> rows == r.data.value
    ensures r.Error? || r.data.None? ==> rows == []
  {
    match r
    case Data(Some(rows)) => rows
    case _ => []
  }
}

=== FILE: circles_manager.dfy ===
/**
  The circles panel's form: validating a new circle, the record sent for it, and what the
  form shows once the insert has answered.
 */
module CirclesManager {
  import opened Backend
  import opened JsText
  import App

  /** `SUGGESTED_COLORS`. */
  const SuggestedColors: seq<string> := ["#f97316", "#22c55e", "#38bdf8", "#e11d48", "#a855f7"]

  const NoSessionMessage := "Sesión no válida. Inicia sesión nuevamente."
  const NoNameMessage := "Ponle un nombre al círculo."
  const DefaultDescription := "Sin descripción aún."
  const CreateFailedMessage := "Hubo un problema creando el círculo."
  const CreatedMessage := "Círculo creado."

  datatype Form = Form(circles: seq<App.Circle>, name: string, description: string, color: string, status: string)

  /** The panel as first rendered: no circles, empty fields, the first suggested colour. */
  function Initial(): (f: Form)
    ensures f.color == SuggestedColors[0]
    ensures f.circles == [] && f.name == "" && f.description == "" && f.status == ""
  {
    Form([], "", "", SuggestedColors[0], "")
  }

  /** The values inserted for a new circle. */
  datatype CircleDraft = CircleDraft(userId: UserId, name: string, description: string, color: string)

  datatype Submission = Submission(form: Form, sent: Option<CircleDraft>)

  /** `handleSubmit`, given the signed-in user and what the insert answered. The insert
      happens, and its answer matters, only once both checks pass. */
  function Submit(f: Form, user: Option<UserId>, insert: Outcome<App.Circle>): (r: Submission)
    ensures r.sent.Some? <==> user.Some? && !Blank(f.name)
    ensures user.None? ==> r.form == f.(status := NoSessionMessage)
    ensures user.Some? && Blank(f.name) ==> r.form == f.(status := NoNameMessage)
    ensures r.sent.Some? ==>
      && r.sent.value.userId == user.value
      && r.sent.value.name == Trim(f.name) && r.sent.value.name != "" && Tight(r.sent.value.name)
      && r.sent.value.color == f.color
      && (Blank(f.description) ==> r.sent.value.description == DefaultDescription)
      && (!Blank(f.description) ==> r.sent.value.description == Trim(f.description))
    ensures r.sent.Some? && insert.Failed? ==> r.form == f.(status := CreateFailedMessage)
    ensures r.sent.Some? && insert.Succeeded? ==>
      r.form == Form(f.circles + [insert.value], "", "", f.color, CreatedMessage)
    ensures r.form.color == f.color
  {
    match user
    case None => Submission(f.(status := NoSessionMessage), None)
    case Some(uid) =>
      if Blank(f.name) then Submission(f.(status := NoNameMessage), None)
      else
        var draft := CircleDraft(uid, Trim(f.name), Or(Trim(f.description), DefaultDescription), f.color);
        match insert
        case Failed(_) => Submission(f.(status := CreateFailedMessage), Some(draft))
        case Succeeded(c) =>
          Submission(Form(f.circles + [c], "", "", f.color, CreatedMessage), Some(draft))
  }

  /** What the user can do to the form: type into the two fields, click one of the colour
      chips (by its position in the palette), or submit. */
  datatype Event =
    | TypeName(text: string)
    | TypeDescription(text: string)
    | PickColor(chip: nat)
    | SubmitForm(user: Option<UserId>, insert: Outcome<App.Circle>)

  /** Only the rendered chips can be clicked. */
  predicate IsRendered(e: Event) {
    e.PickColor? ==> e.chip < |SuggestedColors|
  }

  function Step(f: Form, e: Event): Form
    requires IsRendered(e)
  {
    match e
    case TypeName(t) => f.(name := t)
    case TypeDescription(t) => f.(description := t)
    case PickColor(i) => f.(color := SuggestedColors[i])
    case SubmitForm(user, insert) => Submit(f, user, insert).form
  }

  function Run(f: Form, es: seq<Event>): Form
    requires forall i :: 0 <= i < |es| ==> IsRendered(es[i])
    decreases |es|
  {
    if |es| == 0 then f else Run(Step(f, es[0]), es[1..])
  }

  /** Whatever the user does, the colour is always one of the suggested colours. */
  lemma {:induction false} ColorStaysInPalette(f: Form, es: seq<Event>)
    requires f.color in SuggestedColors
    requires forall i :: 0 <= i < |es| ==> IsRendered(es[i])
    ensures Run(f, es).color in SuggestedColors
    decreases |es|
  {
    if |es| > 0 {
      ColorStaysInPalette(Step(f, es[0]), es[1..]);
    }
  }

  /** In particular from the panel's initial state. */
  lemma ReachableColorsAreSuggested(es: seq<Event>)
    requires forall i :: 0 <= i < |es| ==> IsRendered(es[i])
    ensures Run(Initial(), es).color in SuggestedColors
  {
    ColorStaysInPalette(Initial(), es);
  }
}

=== FILE: connections.dfy ===
/**
  The connections panel: classification of the viewer's connection rows into incoming
  requests, outgoing requests and accepted connections, and the de-duplicated list of
  counterpart ids whose profiles are fetched before classifying.
 */
module Connections {
  import opened Backend
  import opened Seqs

  const AcceptedStatus := "accepted"
  const PendingStatus := "pending"

  /** A row of the connection table: `userId` sent the request to `targetUserId`. */
  datatype Row = Row(id: string, userId: UserId, targetUserId: UserId, status: string, createdAt: string)

  datatype Direction = Incoming | Outgoing

  /** What the panel shows for one row. */
  datatype Entry = Entry(
    id: string,
    status: string,
    createdAt: string,
    otherId: UserId,
    profile: Option<Profile>,
    direction: Direction)

  datatype Groups = Groups(incoming: seq<Entry>, outgoing: seq<Entry>, accepted: seq<Entry>)

  /** Which of the three lists a row belongs in; `NoBucket` for a status that is neither
      "accepted" nor "pending". */
  datatype Bucket = IncomingBucket | OutgoingBucket | AcceptedBucket | NoBucket

  /** The other party of a row, seen from `viewer`. */
  function Counterpart(c: Row, viewer: UserId): (other: UserId)
    ensures c.userId == viewer ==> other == c.targetUserId
    ensures c.userId != viewer ==> other == c.userId
  {
    if c.userId == viewer then c.targetUserId else c.userId
  }

  /** For a row that involves the viewer and joins two distinct users, the counterpart is the
      endpoint that is not the viewer. */
  lemma CounterpartIsOtherEndpoint(c: Row, viewer: UserId)
    requires c.userId == viewer || c.targetUserId == viewer
    requires c.userId != c.targetUserId
    ensures Counterpart(c, viewer) != viewer
    ensures {viewer, Counterpart(c, viewer)} == {c.userId, c.targetUserId}
  {
  }

  /** `profilesById.get(otherId) || null`. */
  function Lookup(profiles: map<UserId, Profile>, id: UserId): (p: Option<Profile>)
    ensures p.Some? <==> id in profiles
    ensures p.Some? ==> p.value == profiles[id]
  {
    if id in profiles then Some(profiles[id]) else None
  }

  /** The entry built for one row: its id, status and creation time unchanged, the counterpart,
      that counterpart's profile when one was fetched, and the direction of the request. */
  function ToEntry(c: Row, viewer: UserId, profiles: map<UserId, Profile>): (e: Entry)
    ensures e.id == c.id && e.status == c.status && e.createdAt == c.createdAt
    ensures e.otherId == Counterpart(c, viewer)
    ensures e.direction == Outgoing <==> c.userId == viewer
    ensures e.profile.None? <==> e.otherId !in profiles
    ensures e.profile.Some? ==> e.profile.value == profiles[e.otherId]
  {
    var isMeSource := c.userId == viewer;
    var otherId := Counterpart(c, viewer);
    Entry(c.id, c.status, c.createdAt, otherId, Lookup(profiles, otherId),
          if isMeSource then Outgoing else Incoming)
  }

  /** Routing of a row by its status and, for pending rows, by whether the viewer sent it. */
  function BucketOf(c: Row, viewer: UserId): Bucket {
    if c.status == AcceptedStatus then AcceptedBucket
    else if c.status == PendingStatus then
      if c.userId == viewer then OutgoingBucket else IncomingBucket
    else NoBucket
  }

  /** The bucket an entry's own fields place it in. */
  function EntryBucket(e: Entry): Bucket {
    if e.status == AcceptedStatus then AcceptedBucket
    else if e.status == PendingStatus then
      if e.direction == Outgoing then OutgoingBucket else IncomingBucket
    else NoBucket
  }

  /** Reference definition of one output list: the entries of the rows routed to `b`, in
      input order. */
  function Select(rows: seq<Row>, viewer: UserId, profiles: map<UserId, Profile>, b: Bucket): seq<Entry>
  {
    if |rows| == 0 then []
    else
      var last := rows[|rows| - 1];
      Select(rows[..|rows| - 1], viewer, profiles, b)
        + (if BucketOf(last, viewer) == b then [ToEntry(last, viewer, profiles)] else [])
  }

  /** The entries of all rows, in input order. */
  function Entries(rows: seq<Row>, viewer: UserId, profiles: map<UserId, Profile>): (es: seq<Entry>)
    ensures |es| == |rows|
    ensures forall i :: 0 <= i < |rows| ==> es[i] == ToEntry(rows[i], viewer, profiles)
  {
    if |rows| == 0 then []
    else Entries(rows[..|rows| - 1], viewer, profiles) + [ToEntry(rows[|rows| - 1], viewer, profiles)]
  }

  /** Number of rows whose status is "pending" or "accepted". */
  function KeptCount(rows: seq<Row>): nat {
    if |rows| == 0 then 0
    else
      KeptCount(rows[..|rows| - 1])
        + (if rows[|rows| - 1].status in {AcceptedStatus, PendingStatus} then 1 else 0)
  }

  /** `groupConnections`: one pass over the rows, pushing each row's entry onto the list its
      status and direction select. */
  method GroupConnections(rows: seq<Row>, viewer: UserId, profiles: map<UserId, Profile>)
    returns (g: Groups)
    ensures g.incoming == Select(rows, viewer, profiles, IncomingBucket)
    ensures g.outgoing == Select(rows, viewer, profiles, OutgoingBucket)
    ensures g.accepted == Select(rows, viewer, profiles, AcceptedBucket)
  {
    var incoming: seq<Entry> := [];
    var outgoing: seq<Entry> := [];
    var accepted: seq<Entry> := [];
    for i := 0 to |rows|
      invariant incoming == Select(rows[..i], viewer, profiles, IncomingBucket)
      invariant outgoing == Select(rows[..i], viewer, profiles, OutgoingBucket)
      invariant accepted == Select(rows[..i], viewer, profiles, AcceptedBucket)
    {
      assert rows[..i + 1][..i] == rows[..i];
      var c := rows[i];
      var isMeSource := c.userId == viewer;
      var base := ToEntry(c, viewer, profiles);
      if c.status == AcceptedStatus {
        accepted := accepted + [base];
      } else if c.status == PendingStatus {
        if isMeSource {
          outgoing := outgoing + [base];
        } else {
          incoming := incoming + [base];
        }
      }
    }
    assert rows[..|rows|] == rows;
    g := Groups(incoming, outgoing, accepted);
  }

  /** Every entry of a list carries the fields that select that list: "accepted" entries in
      `accepted`, "pending" outgoing ones in `outgoing`, "pending" incoming ones in `incoming`. */
  lemma {:induction false} SelectedEntriesShape(
    rows: seq<Row>, viewer: UserId, profiles: map<UserId, Profile>, b: Bucket)
    ensures forall e :: e in Select(rows, viewer, profiles, b) ==> EntryBucket(e) == b
    ensures b == AcceptedBucket ==>
      forall e :: e in Select(rows, viewer, profiles, b) ==> e.status == AcceptedStatus
    ensures b == OutgoingBucket ==>
      forall e :: e in Select(rows, viewer, profiles, b) ==>
        e.status == PendingStatus && e.direction == Outgoing
    ensures b == IncomingBucket ==>
      forall e :: e in Select(rows, viewer, profiles, b) ==>
        e.status == PendingStatus && e.direction == Incoming
  {
    if |rows| > 0 {
      SelectedEntriesShape(rows[..|rows| - 1], viewer, profiles, b);
    }
  }

  /** The three lists share no entry. */
  lemma GroupsDisjoint(rows: seq<Row>, viewer: UserId, profiles: map<UserId, Profile>)
    ensures forall e :: e in Select(rows, viewer, profiles, IncomingBucket) ==>
      e !in Select(rows, viewer, profiles, OutgoingBucket)
      && e !in Select(rows, viewer, profiles, AcceptedBucket)
    ensures forall e :: e in Select(rows, viewer, profiles, OutgoingBucket) ==>
      e !in Select(rows, viewer, profiles, AcceptedBucket)
  {
    SelectedEntriesShape(rows, viewer, profiles, IncomingBucket);
    SelectedEntriesShape(rows, viewer, profiles, OutgoingBucket);
    SelectedEntriesShape(rows, viewer, profiles, AcceptedBucket);
  }

  /** Every row with a known status lands in its list: an accepted row in `accepted` whatever
      its direction, a pending row in `outgoing` when the viewer sent it and in `incoming`
      otherwise; a row with any other status appears in none of the lists. */
  lemma {:induction false} GroupsComplete(
    rows: seq<Row>, viewer: UserId, profiles: map<UserId, Profile>, i: nat)
    requires i < |rows|
    ensures rows[i].status == AcceptedStatus ==>
      ToEntry(rows[i], viewer, profiles) in Select(rows, viewer, profiles, AcceptedBucket)
    ensures rows[i].status == PendingStatus && rows[i].userId == viewer ==>
      ToEntry(rows[i], viewer, profiles) in Select(rows, viewer, profiles, OutgoingBucket)
    ensures rows[i].status == PendingStatus && rows[i].userId != viewer ==>
      ToEntry(rows[i], viewer, profiles) in Select(rows, viewer, profiles, IncomingBucket)
    ensures rows[i].status !in {AcceptedStatus, PendingStatus} ==>
      && ToEntry(rows[i], viewer, profiles) !in Select(rows, viewer, profiles, IncomingBucket)
      && ToEntry(rows[i], viewer, profiles) !in Select(rows, viewer, profiles, OutgoingBucket)
      && ToEntry(rows[i], viewer, profiles) !in Select(rows, viewer, profiles, AcceptedBucket)
    decreases |rows|
  {
    var e := ToEntry(rows[i], viewer, profiles);
    var front := rows[..|rows| - 1];
    if i < |rows| - 1 {
      assert front[i] == rows[i];
      GroupsComplete(front, viewer, profiles, i);
    }
    if rows[i].status !in {AcceptedStatus, PendingStatus} {
      SelectedEntriesShape(rows, viewer, profiles, IncomingBucket);
      SelectedEntriesShape(rows, viewer, profiles, OutgoingBucket);
      SelectedEntriesShape(rows, viewer, profiles, AcceptedBucket);
      assert EntryBucket(e) == NoBucket;
    }
  }

  /** The lists together hold exactly one entry per pending-or-accepted row. */
  lemma {:induction false} GroupsLength(rows: seq<Row>, viewer: UserId, profiles: map<UserId, Profile>)
    ensures |Select(rows, viewer, profiles, IncomingBucket)|
      + |Select(rows, viewer, profiles, OutgoingBucket)|
      + |Select(rows, viewer, profiles, AcceptedBucket)| == KeptCount(rows)
  {
    if |rows| > 0 {
      GroupsLength(rows[..|rows| - 1], viewer, profiles);
    }
  }

  /** Each list keeps the input order: it is a subsequence of the entries of all rows. */
  lemma {:induction false} SelectIsSubsequence(
    rows: seq<Row>, viewer: UserId, profiles: map<UserId, Profile>, b: Bucket)
    ensures IsSubsequence(Select(rows, viewer, profiles, b), Entries(rows, viewer, profiles))
  {
    if |rows| > 0 {
      var front := rows[..|rows| - 1];
      var s := Select(front, viewer, profiles, b);
      var es := Entries(rows, viewer, profiles);
      SelectIsSubsequence(front, viewer, profiles, b);
      assert es[..|es| - 1] == Entries(front, viewer, profiles);
      if BucketOf(rows[|rows| - 1], viewer) == b {
        assert (s + [es[|es| - 1]])[..|s|] == s;
      } else {
        assert s + [] == s;
      }
    }
  }

  /** The counterpart of every row, in input order (`rawConns.map(...)`). */
  function Counterparts(rows: seq<Row>, viewer: UserId): (ids: seq<UserId>)
    ensures |ids| == |rows|
    ensures forall i :: 0 <= i < |rows| ==> ids[i] == Counterpart(rows[i], viewer)
  {
    if |rows| == 0 then []
    else Counterparts(rows[..|rows| - 1], viewer) + [Counterpart(rows[|rows| - 1], viewer)]
  }

  /** The ids whose profiles are requested: each counterpart of a row exactly once. */
  function OtherIds(rows: seq<Row>, viewer: UserId): (ids: seq<UserId>)
    ensures forall u :: u in ids <==> u in Counterparts(rows, viewer)
    ensures forall i :: 0 <= i < |rows| ==> Counterpart(rows[i], viewer) in ids
    ensures forall i, j :: 0 <= i < j < |ids| ==> ids[i] != ids[j]
  {
    var cs := Counterparts(rows, viewer);
    assert forall i :: 0 <= i < |rows| ==> cs[i] in cs;
    Distinct(cs)
  }

  /** `new Map()` filled by `map.set(p.id, p)` over the fetched profiles: the ids are the keys,
      and a later profile with the same id overwrites an earlier one. */
  function ProfileMap(ps: seq<Profile>): (m: map<UserId, Profile>)
    ensures m.Keys == set p | p in ps :: p.id
    ensures forall id :: id in m ==> m[id].id == id && m[id] in ps
  {
    if |ps| == 0 then map[]
    else
      var front := ProfileMap(ps[..|ps| - 1]);
      var p := ps[|ps| - 1];
      assert ps == ps[..|ps| - 1] + [p];
      front[p.id := p]
  }

  /** The last profile carrying an id is the one stored under it: a later profile with the
      same id overwrites an earlier one. */
  lemma {:induction false} ProfileMapLastWins(ps: seq<Profile>, i: nat)
    requires i < |ps|
    requires forall j :: i < j < |ps| ==> ps[j].id != ps[i].id
    ensures ps[i].id in ProfileMap(ps) && ProfileMap(ps)[ps[i].id] == ps[i]
    decreases |ps|
  {
    var front := ps[..|ps| - 1];
    if i < |ps| - 1 {
      assert front[i] == ps[i];
      forall j | i < j < |front| ensures front[j].id != front[i].id {
        assert front[j] == ps[j];
      }
      ProfileMapLastWins(front, i);
    }
  }

  /** With one profile per id, as the profile table's key guarantees, each profile is found
      under its own id. */
  lemma {:induction false} ProfileMapFindsEach(ps: seq<Profile>, i: nat)
    requires forall j, k :: 0 <= j < k < |ps| ==> ps[j].id != ps[k].id
    requires i < |ps|
    ensures ps[i].id in ProfileMap(ps) && ProfileMap(ps)[ps[i].id] == ps[i]
  {
    if i < |ps| - 1 {
      ProfileMapFindsEach(ps[..|ps| - 1], i);
    }
  }

  /** The panel's state: the three lists and the status message. */
  datatype Panel = Panel(groups: Groups, message: string)

  const EmptyGroups := Groups([], [], [])
  const NoUserMessage := "No se pudo obtener el usuario actual."

  /** Reference definition of `groupConnections`. */
  function Group(rows: seq<Row>, viewer: UserId, profiles: map<UserId, Profile>): Groups {
    Groups(
      Select(rows, viewer, profiles, IncomingBucket),
      Select(rows, viewer, profiles, OutgoingBucket),
      Select(rows, viewer, profiles, AcceptedBucket))
  }

  /** What `loadConnections` leaves behind: the panel, and the ids sent to the profile query
      (`.in("id", otherIds)`), or `None` when that query is never made. */
  datatype Loaded = Loaded(panel: Panel, requested: Option<seq<UserId>>)

  /** `loadConnections`, given what the auth lookup, the connection query and the profile
      query resolved to. A failed step leaves the lists as they were and reports why; no rows
      give three empty lists without querying profiles. */
  function Load(
    panel: Panel,
    user: Response<AuthUser>,
    conns: Response<seq<Row>>,
    profiles: Response<seq<Profile>>): (r: Loaded)
    ensures (user.Error? || user.data.None?) ==> r == Loaded(Panel(panel.groups, NoUserMessage), None)
    ensures user.Data? && user.data.Some? && conns.Error? ==>
      r == Loaded(Panel(panel.groups, conns.message), None)
    ensures user.Data? && user.data.Some? && conns.Data? && RowsOrEmpty(conns) == [] ==>
      r == Loaded(Panel(EmptyGroups, ""), None)
    ensures r.requested.Some? <==> user.Data? && user.data.Some? && conns.Data? && RowsOrEmpty(conns) != []
    ensures r.requested.Some? ==> r.requested.value == OtherIds(RowsOrEmpty(conns), user.data.value.id)
    ensures user.Data? && user.data.Some? && conns.Data? && RowsOrEmpty(conns) != [] ==>
      if profiles.Error? then r.panel == Panel(panel.groups, profiles.message)
      else r.panel == Panel(Group(RowsOrEmpty(conns), user.data.value.id, ProfileMap(RowsOrEmpty(profiles))), "")
  {
    match user
    case Error(_) => Loaded(Panel(panel.groups, NoUserMessage), None)
    case Data(None) => Loaded(Panel(panel.groups, NoUserMessage), None)
    case Data(Some(u)) =>
      match conns
      case Error(msg) => Loaded(Panel(panel.groups, msg), None)
      case Data(None) => Loaded(Panel(EmptyGroups, ""), None)
      case Data(Some(rows)) =>
        if |rows| == 0 then Loaded(Panel(EmptyGroups, ""), None)
        else
          var requested := Some(OtherIds(rows, u.id));
          match profiles
          case Error(msg) => Loaded(Panel(panel.groups, msg), requested)
          case Data(ps) =>
            Loaded(Panel(Group(rows, u.id, ProfileMap(RowsOrEmpty(Data(ps)))), ""), requested)
  }

  /** The empty-input shortcut agrees with classifying no rows. */
  lemma EmptyShortcutAgrees(viewer: UserId, profiles: map<UserId, Profile>)
    ensures Group([], viewer, profiles) == EmptyGroups
  {
  }
}

=== FILE: create_moment.dfy ===
/**
  The moment composer: the mood and visibility choices, the checks made before publishing,
  the record inserted, and the reset after a successful publish.
 */
module CreateMoment {
  import opened Backend
  import opened JsText
  import App

  /** `MOODS`. */
  const Moods: seq<string> := ["inspirado", "reflexivo", "agradecido", "tranquilo", "intenso"]
  /** The values of `VISIBILITIES`. */
  const Visibilities: seq<string> := ["connections", "public", "private"]

  const DefaultMood := "inspirado"
  const DefaultVisibility := "connections"

  const NoTitleMessage := "Ponle un título al momento."
  const NoCircleMessage := "Selecciona un círculo."
  const NoSessionMessage := "Sesión no válida."
  const CreatedMessage := "Momento creado correctamente."

  datatype Form = Form(
    title: string,
    content: string,
    mood: string,
    visibility: string,
    circleId: string,
    status: string)

  /** The form as first rendered: defaults for mood and visibility, and the selected circle's
      id (`selectedCircle?.id || ""`). */
  function Initial(selected: Option<App.Circle>): (f: Form)
    ensures f.mood == DefaultMood && f.mood == Moods[0]
    ensures f.visibility == DefaultVisibility && f.visibility == Visibilities[0]
    ensures f.title == "" && f.content == "" && f.status == ""
    ensures selected.Some? ==> f.circleId == selected.value.id
    ensures selected.None? ==> f.circleId == ""
  {
    var circleId := match selected case Some(c) => Or(c.id, "") case None => "";
    Form("", "", DefaultMood, DefaultVisibility, circleId, "")
  }

  /** The values inserted for a moment. */
  datatype MomentDraft = MomentDraft(
    userId: UserId,
    circleId: string,
    title: string,
    content: string,
    mood: string,
    visibility: string)

  datatype Publication = Publication(form: Form, sent: Option<MomentDraft>)

  /** `handlePublish`, given what the user lookup and the insert answered. The title is checked
      before the circle, and both before the session. */
  function Publish(f: Form, user: Response<UserId>, insert: Outcome<()>): (r: Publication)
    ensures Blank(f.title) ==> r == Publication(f.(status := NoTitleMessage), None)
    ensures !Blank(f.title) && f.circleId == "" ==> r == Publication(f.(status := NoCircleMessage), None)
    ensures !Blank(f.title) && f.circleId != "" && (user.Error? || user.data.None?) ==>
      r == Publication(f.(status := NoSessionMessage), None)
    ensures r.sent.Some? <==> !Blank(f.title) && f.circleId != "" && user.Data? && user.data.Some?
    ensures r.sent.Some? ==>
      && r.sent.value.userId == user.data.value
      && r.sent.value.circleId == f.circleId
      && r.sent.value.title == Trim(f.title) && r.sent.value.title != ""
      && r.sent.value.content == Trim(f.content)
      && r.sent.value.mood == f.mood
      && r.sent.value.visibility == f.visibility
    ensures r.sent.Some? && insert.Failed? ==> r.form == f.(status := insert.message)
    ensures r.sent.Some? && insert.Succeeded? ==>
      r.form == Form("", "", DefaultMood, DefaultVisibility, f.circleId, CreatedMessage)
    ensures r.form.circleId == f.circleId
  {
    if Blank(f.title) then Publication(f.(status := NoTitleMessage), None)
    else if f.circleId == "" then Publication(f.(status := NoCircleMessage), None)
    else
      match user
      case Error(_) => Publication(f.(status := NoSessionMessage), None)
      case Data(None) => Publication(f.(status := NoSessionMessage), None)
      case Data(Some(uid)) =>
        var draft := MomentDraft(uid, f.circleId, Trim(f.title), Trim(f.content), f.mood, f.visibility);
        match insert
        case Failed(msg) => Publication(f.(status := msg), Some(draft))
        case Succeeded(_) =>
          Publication(Form("", "", DefaultMood, DefaultVisibility, f.circleId, CreatedMessage), Some(draft))
  }

  /** What the user can do to the composer: pick a circle from the list (or the empty
      option), type a title or content, click a mood or visibility chip (by its position),
      or publish. */
  datatype Event =
    | ChooseCircle(id: string)
    | TypeTitle(text: string)
    | TypeContent(text: string)
    | PickMood(chip: nat)
    | PickVisibility(chip: nat)
    | PublishForm(user: Response<UserId>, insert: Outcome<()>)

  /** Only the rendered chips can be clicked. */
  predicate IsRendered(e: Event) {
    && (e.PickMood? ==> e.chip < |Moods|)
    && (e.PickVisibility? ==> e.chip < |Visibilities|)
  }

  function Step(f: Form, e: Event): Form
    requires IsRendered(e)
  {
    match e
    case ChooseCircle(id) => f.(circleId := id)
    case TypeTitle(t) => f.(title := t)
    case TypeContent(t) => f.(content := t)
    case PickMood(i) => f.(mood := Moods[i])
    case PickVisibility(i) => f.(visibility := Visibilities[i])
    case PublishForm(user, insert) => Publish(f, user, insert).form
  }

  function Run(f: Form, es: seq<Event>): Form
    requires forall i :: 0 <= i < |es| ==> IsRendered(es[i])
    decreases |es|
  {
    if |es| == 0 then f else Run(Step(f, es[0]), es[1..])
  }

  predicate ChoicesListed(f: Form) {
    f.mood in Moods && f.visibility in Visibilities
  }

  /** Mood and visibility only ever take values from `MOODS` and `VISIBILITIES`, so every
      inserted moment carries listed values. */
  lemma {:induction false} ChoicesStayListed(f: Form, es: seq<Event>)
    requires ChoicesListed(f)
    requires forall i :: 0 <= i < |es| ==> IsRendered(es[i])
    ensures ChoicesListed(Run(f, es))
    decreases |es|
  {
    if |es| > 0 {
      ChoicesStayListed(Step(f, es[0]), es[1..]);
    }
  }

  /** Every moment published from a composer the user has been using carries a listed mood
      and visibility. */
  lemma PublishedChoicesListed(
    selected: Option<App.Circle>, es: seq<Event>, user: Response<UserId>, insert: Outcome<()>)
    requires forall i :: 0 <= i < |es| ==> IsRendered(es[i])
    ensures var p := Publish(Run(Initial(selected), es), user, insert);
      p.sent.Some? ==> p.sent.value.mood in Moods && p.sent.value.visibility in Visibilities
  {
    ChoicesStayListed(Initial(selected), es);
  }
}

=== FILE: feed.dfy ===
/**
  The mosaic feed: the set of accepted-connection counterparts, and the client-side filter
  that hides "connections" moments of people the viewer is not connected with.
 */
module Feed {
  import opened Backend
  import opened Seqs
  import Connections

  const ConnectionsVisibility := "connections"
  const SignedOutMessage := "Inicia sesión para ver tu feed."
  const FetchFailedMessage := "No se pudo cargar el feed."
  const EmptyFeedMessage := "Aún no hay momentos visibles. Crea uno o conéctate con otras personas."

  /** A row of the moment table; `userId` is the author. */
  datatype Moment = Moment(
    id: string,
    userId: UserId,
    circleId: string,
    title: string,
    content: string,
    mood: string,
    visibility: string,
    createdAt: string)

  /** Reference definition of `connectedIds`: the counterparts of the fetched rows. */
  function CounterpartSet(conns: seq<Connections.Row>, viewer: UserId): set<UserId> {
    set c | c in conns :: Connections.Counterpart(c, viewer)
  }

  lemma CounterpartSetSnoc(conns: seq<Connections.Row>, c: Connections.Row, viewer: UserId)
    ensures CounterpartSet(conns + [c], viewer)
      == CounterpartSet(conns, viewer) + {Connections.Counterpart(c, viewer)}
  {
    var lhs := CounterpartSet(conns + [c], viewer);
    var rhs := CounterpartSet(conns, viewer) + {Connections.Counterpart(c, viewer)};
    forall u | u in lhs ensures u in rhs {
      var x :| x in conns + [c] && Connections.Counterpart(x, viewer) == u;
      if x != c {
        assert x in conns;
      }
    }
    forall u | u in rhs ensures u in lhs {
      if u != Connections.Counterpart(c, viewer) {
        var x :| x in conns && Connections.Counterpart(x, viewer) == u;
        assert x in conns + [c];
      } else {
        assert c in conns + [c];
      }
    }
  }

  /** The `forEach` that fills `connectedIds`; a failed or empty connection query (`conns || []`)
      leaves it empty. */
  method CollectConnectedIds(conns: Response<seq<Connections.Row>>, viewer: UserId)
    returns (ids: set<UserId>)
    ensures ids == CounterpartSet(RowsOrEmpty(conns), viewer)
    ensures conns.Error? ==> ids == {}
  {
    var rows := RowsOrEmpty(conns);
    ids := {};
    for i := 0 to |rows|
      invariant ids == CounterpartSet(rows[..i], viewer)
    {
      assert rows[..i + 1] == rows[..i] + [rows[i]];
      CounterpartSetSnoc(rows[..i], rows[i], viewer);
      if rows[i].userId == viewer {
        ids := ids + {rows[i].targetUserId};
      } else {
        ids := ids + {rows[i].userId};
      }
    }
    assert rows[..|rows|] == rows;
  }

  /** Each row contributes at most one member, so the set is no larger than the row list. */
  lemma {:induction false} CounterpartSetBounded(conns: seq<Connections.Row>, viewer: UserId)
    ensures |CounterpartSet(conns, viewer)| <= |conns|
  {
    if |conns| > 0 {
      var front := conns[..|conns| - 1];
      var c := conns[|conns| - 1];
      CounterpartSetBounded(front, viewer);
      assert conns == front + [c];
      CounterpartSetSnoc(front, c, viewer);
    }
  }

  /** Repeating a row does not change the set. */
  lemma DuplicateRowAddsNothing(conns: seq<Connections.Row>, c: Connections.Row, viewer: UserId)
    requires c in conns
    ensures CounterpartSet(conns + [c], viewer) == CounterpartSet(conns, viewer)
  {
  }

  /** When every fetched row is accepted, the set is exactly the counterparts the classifier
      puts in its `accepted` list. */
  lemma {:induction false} CounterpartSetMatchesAccepted(
    conns: seq<Connections.Row>, viewer: UserId, profiles: map<UserId, Profile>)
    requires forall c :: c in conns ==> c.status == Connections.AcceptedStatus
    ensures CounterpartSet(conns, viewer)
      == set e | e in Connections.Select(conns, viewer, profiles, Connections.AcceptedBucket) :: e.otherId
  {
    if |conns| > 0 {
      var front := conns[..|conns| - 1];
      var c := conns[|conns| - 1];
      assert conns == front + [c];
      assert forall x :: x in front ==> x in conns;
      CounterpartSetMatchesAccepted(front, viewer, profiles);
      CounterpartSetSnoc(front, c, viewer);
      var sel := Connections.Select(front, viewer, profiles, Connections.AcceptedBucket);
      var e := Connections.ToEntry(c, viewer, profiles);
      assert Connections.Select(conns, viewer, profiles, Connections.AcceptedBucket) == sel + [e];
      assert (set x | x in sel + [e] :: x.otherId) == (set x | x in sel :: x.otherId) + {e.otherId};
    }
  }

  /** The three rules of the filter: anything not marked "connections", anything the viewer
      wrote, and "connections" moments of connected authors. */
  predicate Visible(m: Moment, viewer: UserId, connected: set<UserId>) {
    m.visibility != ConnectionsVisibility || m.userId == viewer || m.userId in connected
  }

  /** `data.filter(...)`: the visible moments, in the order fetched. */
  function FilterVisible(items: seq<Moment>, viewer: UserId, connected: set<UserId>): (r: seq<Moment>)
    ensures |r| <= |items|
    ensures forall m :: m in r <==> m in items && Visible(m, viewer, connected)
  {
    if |items| == 0 then []
    else
      var front := items[..|items| - 1];
      var m := items[|items| - 1];
      assert items == front + [m];
      FilterVisible(front, viewer, connected) + (if Visible(m, viewer, connected) then [m] else [])
  }

  /** The filter never reorders: its result is a subsequence of the fetched moments. */
  lemma {:induction false} FilterIsSubsequence(items: seq<Moment>, viewer: UserId, connected: set<UserId>)
    ensures IsSubsequence(FilterVisible(items, viewer, connected), items)
  {
    if |items| > 0 {
      var front := items[..|items| - 1];
      var r := FilterVisible(front, viewer, connected);
      FilterIsSubsequence(front, viewer, connected);
      if Visible(items[|items| - 1], viewer, connected) {
        assert (r + [items[|items| - 1]])[..|r|] == r;
      } else {
        assert r + [] == r;
      }
    }
  }

  /** Filtering a concatenation filters each part. */
  lemma {:induction false} FilterConcat(a: seq<Moment>, b: seq<Moment>, viewer: UserId, connected: set<UserId>)
    ensures FilterVisible(a + b, viewer, connected)
      == FilterVisible(a, viewer, connected) + FilterVisible(b, viewer, connected)
    decreases |b|
  {
    if |b| == 0 {
      assert a + b == a;
    } else {
      var front := b[..|b| - 1];
      assert (a + b)[..|a + b| - 1] == a + front;
      FilterConcat(a, front, viewer, connected);
    }
  }

  /** A moment the viewer wrote is kept whatever its visibility and whatever the set. */
  lemma OwnMomentsKept(items: seq<Moment>, viewer: UserId, connected: set<UserId>, m: Moment)
    requires m in items && m.userId == viewer
    ensures m in FilterVisible(items, viewer, connected)
  {
  }

  /** A "connections" moment by someone else is kept exactly when its author is connected;
      any other visibility, "private" included, is kept unconditionally. */
  lemma OthersMomentsRule(items: seq<Moment>, viewer: UserId, connected: set<UserId>, m: Moment)
    requires m in items && m.userId != viewer
    ensures m.visibility == ConnectionsVisibility ==>
      (m in FilterVisible(items, viewer, connected) <==> m.userId in connected)
    ensures m.visibility != ConnectionsVisibility ==> m in FilterVisible(items, viewer, connected)
  {
  }

  /** Every moment already visible is kept in place: then the filter is the identity. */
  lemma {:induction false} FilterKeepsAllVisible(items: seq<Moment>, viewer: UserId, connected: set<UserId>)
    requires forall m :: m in items ==> Visible(m, viewer, connected)
    ensures FilterVisible(items, viewer, connected) == items
  {
    if |items| > 0 {
      var front := items[..|items| - 1];
      assert items == front + [items[|items| - 1]];
      FilterKeepsAllVisible(front, viewer, connected);
    }
  }

  /** Filtering twice with the same viewer and set gives the result of filtering once. */
  lemma FilterIdempotent(items: seq<Moment>, viewer: UserId, connected: set<UserId>)
    ensures FilterVisible(FilterVisible(items, viewer, connected), viewer, connected)
      == FilterVisible(items, viewer, connected)
  {
    FilterKeepsAllVisible(FilterVisible(items, viewer, connected), viewer, connected);
  }

  /** Knowing more connections never hides a moment: the result for a smaller set is a
      subsequence of the result for a larger one. */
  lemma {:induction false} FilterMonotone(
    items: seq<Moment>, viewer: UserId, connected: set<UserId>, more: set<UserId>)
    requires connected <= more
    ensures IsSubsequence(FilterVisible(items, viewer, connected), FilterVisible(items, viewer, more))
  {
    if |items| > 0 {
      var front := items[..|items| - 1];
      var m := items[|items| - 1];
      var a := FilterVisible(front, viewer, connected);
      var b := FilterVisible(front, viewer, more);
      FilterMonotone(front, viewer, connected, more);
      if Visible(m, viewer, connected) {
        assert (a + [m])[..|a|] == a;
        assert (b + [m])[..|b|] == b;
      } else if Visible(m, viewer, more) {
        assert a + [] == a;
        assert (b + [m])[..|b|] == b;
      } else {
        assert a + [] == a;
        assert b + [] == b;
      }
    }
  }

  /** Consequently a larger connection set shows at least as many moments, and every moment
      shown with the smaller set is still shown. */
  lemma MoreConnectionsShowMore(
    items: seq<Moment>, viewer: UserId, connected: set<UserId>, more: set<UserId>)
    requires connected <= more
    ensures |FilterVisible(items, viewer, connected)| <= |FilterVisible(items, viewer, more)|
    ensures forall m :: m in FilterVisible(items, viewer, connected) ==> m in FilterVisible(items, viewer, more)
  {
    FilterMonotone(items, viewer, connected, more);
    SubsequenceElements(FilterVisible(items, viewer, connected), FilterVisible(items, viewer, more));
  }

  /** What the feed shows: the moments and the status line. */
  datatype FeedState = FeedState(moments: seq<Moment>, status: string)

  /** `fetchFeed`, given the signed-in user, what the connection query and the moment query
      resolved to. A failed connection query still lets the filter run, with an empty set; a
      failed moment query keeps the previous moments. */
  function FetchFeed(
    st: FeedState,
    user: Option<UserId>,
    conns: Response<seq<Connections.Row>>,
    data: Response<seq<Moment>>): (r: FeedState)
    ensures user.None? ==> r == FeedState([], SignedOutMessage)
    ensures user.Some? && data.Error? ==> r == FeedState(st.moments, FetchFailedMessage)
    ensures user.Some? && data.Data? && data.data.None? ==> r == FeedState(st.moments, "")
    ensures user.Some? && data.Data? && data.data.Some? ==>
      && r.moments == FilterVisible(data.data.value, user.value, CounterpartSet(RowsOrEmpty(conns), user.value))
      && IsSubsequence(r.moments, data.data.value)
      && (forall m :: m in r.moments <==>
            m in data.data.value
            && Visible(m, user.value, CounterpartSet(RowsOrEmpty(conns), user.value)))
      && (r.status == EmptyFeedMessage <==> r.moments == [])
      && (r.moments != [] ==> r.status == "")
  {
    match user
    case None => FeedState([], SignedOutMessage)
    case Some(u) =>
      match data
      case Error(_) => FeedState(st.moments, FetchFailedMessage)
      case Data(None) => FeedState(st.moments, "")
      case Data(Some(items)) =>
        var connectedIds := CounterpartSet(RowsOrEmpty(conns), u);
        var filtered := FilterVisible(items, u, connectedIds);
        FilterIsSubsequence(items, u, connectedIds);
        FeedState(filtered, if |filtered| == 0 then EmptyFeedMessage else "")
  }

  /** When the connection query fails, only other people's "connections" moments disappear. */
  lemma ConnectionsFailureHidesOnlyOthersConnectionsItems(
    st: FeedState, u: UserId, msg: string, items: seq<Moment>)
    ensures var r := FetchFeed(st, Some(u), Error(msg), Data(Some(items)));
      forall m :: m in r.moments <==>
        m in items && (m.visibility != ConnectionsVisibility || m.userId == u)
  {
  }
}

=== FILE: js_text.dfy ===
/**
  The handful of JavaScript string operations the client's form handlers rely on:
  `String.prototype.trim`, `s.split(sep)[0]`, `s.slice(0, n)` and the `a || b`
  fallback between two strings (the empty string is the only falsy string).
 */
module JsText {

  /** The code points `trim` removes: the WhiteSpace and LineTerminator productions of
      ECMA-262 (sections 12.2 and 12.3), with the Unicode "Zs" category written out. */
  predicate IsWhitespace(c: char) {
    || c == '\t' || c == '\U{000B}' || c == '\U{000C}' || c == ' '
    || c == '\U{00A0}' || c == '\U{FEFF}' || c == '\U{1680}'
    || ('\U{2000}' <= c <= '\U{200A}')
    || c == '\U{202F}' || c == '\U{205F}' || c == '\U{3000}'
    || c == '\n' || c == '\r' || c == '\U{2028}' || c == '\U{2029}'
  }

  predicate AllWhitespace(s: string) {
    forall i :: 0 <= i < |s| ==> IsWhitespace(s[i])
  }

  /** Neither end of `s` is whitespace (vacuous for the empty string). */
  predicate Tight(s: string) {
    |s| > 0 ==> !IsWhitespace(s[0]) && !IsWhitespace(s[|s| - 1])
  }

  /** Number of whitespace characters at the front of `s`. */
  function LeadingSpace(s: string): (k: nat)
    ensures k <= |s|
    ensures AllWhitespace(s[..k])
    ensures k < |s| ==> !IsWhitespace(s[k])
  {
    if |s| > 0 && IsWhitespace(s[0]) then 1 + LeadingSpace(s[1..]) else 0
  }

  /** Number of whitespace characters at the back of `s`. */
  function TrailingSpace(s: string): (k: nat)
    ensures k <= |s|
    ensures AllWhitespace(s[|s| - k..])
    ensures k < |s| ==> !IsWhitespace(s[|s| - k - 1])
  {
    if |s| > 0 && IsWhitespace(s[|s| - 1]) then 1 + TrailingSpace(s[..|s| - 1]) else 0
  }

  /** `s.trim()`: the slice of `s` left once the leading and trailing whitespace runs are cut. */
  function Trim(s: string): (r: string)
    ensures LeadingSpace(s) + |r| <= |s|
    ensures Tight(r)
    ensures r == s[LeadingSpace(s)..LeadingSpace(s) + |r|]
    ensures AllWhitespace(s[..LeadingSpace(s)])
    ensures AllWhitespace(s[LeadingSpace(s) + |r|..])
  {
    var front := LeadingSpace(s);
    var rest := s[front..];
    var back := TrailingSpace(rest);
    assert rest[|rest| - back..] == s[front + (|rest| - back)..];
    rest[..|rest| - back]
  }

  /** `!s.trim()`: the string is empty once trimmed. */
  predicate Blank(s: string) {
    Trim(s) == ""
  }

  /** A string is blank exactly when every character in it is whitespace. */
  lemma BlankIffAllWhitespace(s: string)
    ensures Blank(s) <==> AllWhitespace(s)
  {
    var k := LeadingSpace(s);
    if Blank(s) {
      assert s == s[..k] + s[k..];
    } else {
      var r := Trim(s);
      assert !IsWhitespace(s[k]) by { assert s[k] == r[0]; }
    }
  }

  lemma {:induction false} LeadingSpaceOfPadded(pre: string, rest: string)
    requires AllWhitespace(pre)
    requires |rest| > 0 ==> !IsWhitespace(rest[0])
    ensures LeadingSpace(pre + rest) == |pre|
    decreases |pre|
  {
    if |pre| > 0 {
      assert (pre + rest)[1..] == pre[1..] + rest;
      LeadingSpaceOfPadded(pre[1..], rest);
    }
  }

  lemma {:induction false} TrailingSpaceOfPadded(rest: string, post: string)
    requires AllWhitespace(post)
    requires |rest| > 0 ==> !IsWhitespace(rest[|rest| - 1])
    ensures TrailingSpace(rest + post) == |post|
    decreases |post|
  {
    if |post| > 0 {
      assert (rest + post)[..|rest + post| - 1] == rest + post[..|post| - 1];
      TrailingSpaceOfPadded(rest, post[..|post| - 1]);
    }
  }

  /** Trim is determined by its contract: whatever whitespace surrounds a tight core, trimming
      returns exactly that core. */
  lemma TrimOfPadded(pre: string, core: string, post: string)
    requires AllWhitespace(pre) && AllWhitespace(post) && Tight(core)
    ensures Trim(pre + core + post) == core
  {
    var s := pre + core + post;
    if |core| == 0 {
      assert AllWhitespace(s);
      BlankIffAllWhitespace(s);
    } else {
      assert s == pre + (core + post);
      LeadingSpaceOfPadded(pre, core + post);
      assert s[|pre|..] == core + post;
      TrailingSpaceOfPadded(core, post);
    }
  }

  /** Trimming twice is trimming once. */
  lemma TrimIdempotent(s: string)
    ensures Trim(Trim(s)) == Trim(s)
  {
    var r := Trim(s);
    assert r == "" + r + "";
    TrimOfPadded("", r, "");
  }

  /** Two strings joined by a space are all whitespace exactly when both are. */
  lemma AllWhitespaceJoined(a: string, b: string)
    ensures AllWhitespace(a + " " + b) <==> AllWhitespace(a) && AllWhitespace(b)
  {
    var j := a + " " + b;
    assert forall i :: 0 <= i < |a| ==> j[i] == a[i];
    assert forall i :: 0 <= i < |b| ==> j[|a| + 1 + i] == b[i];
    if AllWhitespace(a) && AllWhitespace(b) {
      forall i | 0 <= i < |j| ensures IsWhitespace(j[i]) {
        if i > |a| { assert j[i] == b[i - |a| - 1]; }
      }
    }
  }

  /** `s.split(sep)[0]`: everything before the first `sep`, or all of `s` when it has none. */
  function BeforeFirst(s: string, sep: char): (r: string)
    ensures sep !in r
    ensures |r| <= |s| && r == s[..|r|]
    ensures |r| < |s| ==> s[|r|] == sep
  {
    if |s| == 0 || s[0] == sep then "" else [s[0]] + BeforeFirst(s[1..], sep)
  }

  /** The prefix is the whole string exactly when the separator does not occur. */
  lemma BeforeFirstWhole(s: string, sep: char)
    ensures BeforeFirst(s, sep) == s <==> sep !in s
  {
    var r := BeforeFirst(s, sep);
    if |r| < |s| {
      assert sep in s by { assert s[|r|] == sep; }
    }
  }

  /** The prefix, the separator and the remainder put back together give the original string. */
  lemma BeforeFirstRoundTrip(s: string, sep: char)
    requires sep in s
    ensures s == BeforeFirst(s, sep) + [sep] + s[|BeforeFirst(s, sep)| + 1..]
  {
    BeforeFirstWhole(s, sep);
  }

  /** `a || b` on strings: `a` unless it is the empty string. */
  function Or(a: string, b: string): (r: string)
    ensures r == a || r == b
    ensures r == "" <==> a == "" && b == ""
    ensures a != "" ==> r == a
  {
    if a != "" then a else b
  }

  /** `s.slice(0, n)`: the first `n` characters, or all of `s` when it is shorter. */
  function Take(s: string, n: nat): (r: string)
    ensures |r| == if |s| < n then |s| else n
    ensures r == s[..|r|]
  {
    if |s| < n then s else s[..n]
  }
}

=== FILE: notes.dfy ===
/**
  The stored notes panel: a note is saved for the signed-in user and shown first.
 */
module NotesPanel {
  import opened Backend
  import opened JsText
  import opened Seqs

  const SignInMessage := "Inicia sesión para guardar notas."
  const EmptyTextMessage := "Escribe algo antes de guardar."
  const SaveFailedMessage := "Hubo un problema guardando la nota."
  const SavedMessage := "Nota guardada."

  /** A row of the note table. */
  datatype Note = Note(id: string, userId: UserId, text: string, createdAt: string)

  datatype Panel = Panel(notes: seq<Note>, text: string, status: string)

  /** The values inserted for a note. */
  datatype NoteDraft = NoteDraft(userId: UserId, text: string)

  datatype Saving = Saving(panel: Panel, sent: Option<NoteDraft>)

  /** `handleSaveNote`, given the signed-in user and what the insert returned. */
  function SaveNote(p: Panel, user: Option<UserId>, insert: Outcome<Note>): (r: Saving)
    ensures r.sent.Some? <==> user.Some? && !Blank(p.text)
    ensures user.None? ==> r.panel == p.(status := SignInMessage)
    ensures user.Some? && Blank(p.text) ==> r.panel == p.(status := EmptyTextMessage)
    ensures r.sent.Some? ==>
      r.sent.value.userId == user.value && r.sent.value.text == Trim(p.text) && r.sent.value.text != ""
    ensures r.sent.Some? && insert.Failed? ==> r.panel == p.(status := SaveFailedMessage)
    ensures r.sent.Some? && insert.Succeeded? ==>
      && |r.panel.notes| == |p.notes| + 1
      && r.panel.notes[0] == insert.value
      && r.panel.notes[1..] == p.notes
      && r.panel.text == ""
      && r.panel.status == SavedMessage
    ensures r.panel.notes == p.notes || r.panel.notes[1..] == p.notes
  {
    match user
    case None => Saving(p.(status := SignInMessage), None)
    case Some(uid) =>
      if Blank(p.text) then Saving(p.(status := EmptyTextMessage), None)
      else
        var draft := NoteDraft(uid, Trim(p.text));
        match insert
        case Failed(_) => Saving(p.(status := SaveFailedMessage), Some(draft))
        case Succeeded(n) => Saving(Panel([n] + p.notes, "", SavedMessage), Some(draft))
  }

  /** Saving a list of notes one after another shows them newest first, above the old ones. */
  function SaveAll(p: Panel, uid: UserId, saved: seq<Note>): Panel
    decreases |saved|
  {
    if |saved| == 0 then p
    else SaveAll(SaveNote(p.(text := saved[0].text), Some(uid), Succeeded(saved[0])).panel, uid, saved[1..])
  }

  /** One successful save of a non-blank note puts it on top and clears the text box. */
  lemma SaveOnePrepends(p: Panel, uid: UserId, saved: seq<Note>)
    requires |saved| > 0 && !Blank(saved[0].text)
    ensures SaveAll(p, uid, saved) == SaveAll(Panel([saved[0]] + p.notes, "", SavedMessage), uid, saved[1..])
  {
  }

  lemma {:induction false} SaveAllPrepends(p: Panel, uid: UserId, saved: seq<Note>)
    requires forall i :: 0 <= i < |saved| ==> !Blank(saved[i].text)
    ensures SaveAll(p, uid, saved).notes == Reverse(saved) + p.notes
    decreases |saved|
  {
    if |saved| > 0 {
      SaveOnePrepends(p, uid, saved);
      var rest := saved[1..];
      assert forall i :: 0 <= i < |rest| ==> rest[i] == saved[i + 1];
      SaveAllPrepends(Panel([saved[0]] + p.notes, "", SavedMessage), uid, rest);
      ReverseFirstLast(saved, p.notes);
    }
  }
}

/**
  The in-memory quick notes: each add puts a note at the front, numbered from the last note
  of the list.
 */
module QuickNotes {
  import opened JsText

  datatype QuickNote = QuickNote(id: int, text: string)

  datatype Pad = Pad(notes: seq<QuickNote>, text: string)

  /** The id `handleAdd` gives a new note: one more than the id of the LAST note of the list,
      which is the oldest, since new notes go in front. */
  function NextIdAsWritten(notes: seq<QuickNote>): int {
    if |notes| > 0 then notes[|notes| - 1].id + 1 else 1
  }

  /** `handleAdd` as written. Whitespace-only text changes nothing, not even the text box. */
  function Add(p: Pad): (r: Pad)
    ensures Blank(p.text) ==> r == p
    ensures !Blank(p.text) ==>
      && |r.notes| == |p.notes| + 1
      && r.notes[1..] == p.notes
      && r.notes[0].text == Trim(p.text) && r.notes[0].text != ""
      && r.text == ""
    ensures !Blank(p.text) && p.notes == [] ==> r.notes[0].id == 1
    ensures !Blank(p.text) && p.notes != [] ==> r.notes[0].id == p.notes[|p.notes| - 1].id + 1
  {
    var trimmed := Trim(p.text);
    if trimmed == "" then p
    else Pad([QuickNote(NextIdAsWritten(p.notes), trimmed)] + p.notes, "")
  }

  /** The id pattern `Add` produces from an empty list: the oldest note has id 1 and every
      other note has id 2. */
  predicate AsWrittenIds(notes: seq<QuickNote>) {
    && (|notes| > 0 ==> notes[|notes| - 1].id == 1)
    && (forall i :: 0 <= i < |notes| - 1 ==> notes[i].id == 2)
  }

  lemma AddKeepsAsWrittenIds(p: Pad)
    requires AsWrittenIds(p.notes)
    ensures AsWrittenIds(Add(p).notes)
  {
    var r := Add(p);
    if !Blank(p.text) && |p.notes| > 0 {
      assert r.notes[|r.notes| - 1] == p.notes[|p.notes| - 1];
      forall i | 1 <= i < |r.notes| - 1 ensures r.notes[i].id == 2 {
        assert r.notes[i] == p.notes[i - 1];
      }
    }
  }

  /** Three non-blank adds from an empty pad leave two notes with the same id. */
  lemma ThirdAddRepeatsAnId(a: string, b: string, c: string)
    requires !Blank(a) && !Blank(b) && !Blank(c)
    ensures var p := Add(Add(Add(Pad([], a)).(text := b)).(text := c));
      |p.notes| == 3 && p.notes[0].id == 2 && p.notes[1].id == 2 && p.notes[2].id == 1
  {
    var p1 := Add(Pad([], a));
    var p2 := Add(p1.(text := b));
    var p3 := Add(p2.(text := c));
    assert p1.notes[0].id == 1;
    assert p2.notes[0].id == 2 && p2.notes[1] == p1.notes[0];
    assert p3.notes[0].id == 2 && p3.notes[1..] == p2.notes;
  }

  /** The evidently intended numbering: one more than the id of the FIRST (newest) note. */
  function NextFreshId(notes: seq<QuickNote>): int {
    if |notes| > 0 then notes[0].id + 1 else 1
  }

  /** `handleAdd` with the corrected numbering. */
  function AddWithFreshId(p: Pad): (r: Pad)
    ensures Blank(p.text) ==> r == p
    ensures !Blank(p.text) ==>
      && |r.notes| == |p.notes| + 1
      && r.notes[1..] == p.notes
      && r.notes[0].text == Trim(p.text) && r.notes[0].text != ""
      && r.text == ""
    ensures !Blank(p.text) && p.notes == [] ==> r.notes[0].id == 1
    ensures !Blank(p.text) && p.notes != [] ==> r.notes[0].id == p.notes[0].id + 1
  {
    var trimmed := Trim(p.text);
    if trimmed == "" then p
    else Pad([QuickNote(NextFreshId(p.notes), trimmed)] + p.notes, "")
  }

  /** Ids count down from the front: the note at position i of n has id n - i. */
  predicate CountsDown(notes: seq<QuickNote>) {
    forall i :: 0 <= i < |notes| ==> notes[i].id == |notes| - i
  }

  /** With the corrected numbering the ids stay 1..n, newest highest, so no two notes share one. */
  lemma AddWithFreshIdKeepsIdsUnique(p: Pad)
    requires CountsDown(p.notes)
    ensures CountsDown(AddWithFreshId(p).notes)
    ensures forall i, j :: 0 <= i < j < |AddWithFreshId(p).notes| ==>
      AddWithFreshId(p).notes[i].id != AddWithFreshId(p).notes[j].id
  {
    var r := AddWithFreshId(p);
    if !Blank(p.text) {
      forall i | 1 <= i < |r.notes| ensures r.notes[i].id == |r.notes| - i {
        assert r.notes[i] == p.notes[i - 1];
      }
    }
  }
}

=== FILE: seqs.dfy ===
/** Generic sequence helpers: order-preserving selection, de-duplication and reversal. */
module Seqs {

  /** `a` can be obtained from `b` by deleting elements, without reordering the rest. */
  predicate IsSubsequence<T(==)>(a: seq<T>, b: seq<T>)
    decreases |b|
  {
    if |a| == 0 then true
    else if |b| == 0 then false
    else
      || (a[|a| - 1] == b[|b| - 1] && IsSubsequence(a[..|a| - 1], b[..|b| - 1]))
      || IsSubsequence(a, b[..|b| - 1])
  }

  /** A subsequence is no longer than the original and holds only elements of it. */
  lemma {:induction false} SubsequenceElements<T>(a: seq<T>, b: seq<T>)
    requires IsSubsequence(a, b)
    ensures |a| <= |b|
    ensures forall x :: x in a ==> x in b
    decreases |b|
  {
    if |a| > 0 {
      if a[|a| - 1] == b[|b| - 1] && IsSubsequence(a[..|a| - 1], b[..|b| - 1]) {
        SubsequenceElements(a[..|a| - 1], b[..|b| - 1]);
        assert a == a[..|a| - 1] + [a[|a| - 1]];
        assert b == b[..|b| - 1] + [b[|b| - 1]];
      } else {
        SubsequenceElements(a, b[..|b| - 1]);
        assert b == b[..|b| - 1] + [b[|b| - 1]];
      }
    }
  }

  /** Every element of `d` appears in `xs` before the first occurrence of any later element
      of `d`: `d` lists elements in the order in which they first occur in `xs`. */
  lemma {:induction false} FirstOccurrenceSnoc<T>(d: seq<T>, xs: seq<T>, x: T)
    requires forall y :: y in d ==> y in xs
    requires forall i, j, q :: 0 <= i < j < |d| && 0 <= q < |xs| && xs[q] == d[j] ==> d[i] in xs[..q]
    ensures x in d ==>
      forall i, j, q :: 0 <= i < j < |d| && 0 <= q < |xs + [x]| && (xs + [x])[q] == d[j] ==>
        d[i] in (xs + [x])[..q]
    ensures x !in xs ==>
      forall i, j, q :: 0 <= i < j < |d + [x]| && 0 <= q < |xs + [x]| && (xs + [x])[q] == (d + [x])[j] ==>
        (d + [x])[i] in (xs + [x])[..q]
  {
    var ys := xs + [x];
    assert ys[..|xs|] == xs;
    forall q | 0 <= q < |xs| ensures ys[..q] == xs[..q] && ys[q] == xs[q] {
    }
    if x !in xs {
      var e := d + [x];
      forall i, j, q | 0 <= i < j < |e| && 0 <= q < |ys| && ys[q] == e[j]
        ensures e[i] in ys[..q]
      {
        if j == |d| {
          assert e[j] == x;
          if q < |xs| {
            assert false;
          }
          assert e[i] == d[i];
        } else {
          assert e[i] == d[i] && e[j] == d[j];
          if q == |xs| {
            assert false;
          }
        }
      }
    }
  }

  /** `Array.from(new Set(xs))`: each element once, in the order of its first occurrence. */
  function Distinct<T(==,!new)>(xs: seq<T>): (d: seq<T>)
    ensures forall x :: x in d <==> x in xs
    ensures forall i, j :: 0 <= i < j < |d| ==> d[i] != d[j]
    ensures IsSubsequence(d, xs)
    ensures forall i, j, q :: 0 <= i < j < |d| && 0 <= q < |xs| && xs[q] == d[j] ==> d[i] in xs[..q]
  {
    if |xs| == 0 then []
    else
      var d := Distinct(xs[..|xs| - 1]);
      var x := xs[|xs| - 1];
      assert xs == xs[..|xs| - 1] + [x];
      FirstOccurrenceSnoc(d, xs[..|xs| - 1], x);
      if x in d then d
      else
        assert (d + [x])[..|d|] == d;
        d + [x]
  }

  /** The elements of `s`, last first. */
  function Reverse<T>(s: seq<T>): (r: seq<T>)
    ensures |r| == |s|
  {
    if |s| == 0 then [] else Reverse(s[1..]) + [s[0]]
  }

  lemma {:induction false} ReverseFirstLast<T>(s: seq<T>, tail: seq<T>)
    requires |s| > 0
    ensures Reverse(s[1..]) + ([s[0]] + tail) == Reverse(s) + tail
  {
    var front := Reverse(s[1..]);
    assert Reverse(s) == front + [s[0]];
    assert front + ([s[0]] + tail) == (front + [s[0]]) + tail;
  }
}
